=== FILE: README.md ===
# URL shortener: key-value model

A Dafny model of the URL shortener's request handlers (`app.py`). The
service keeps everything in Redis. Shortening a URL draws a random
six-character code and writes two keys: `url:<code>` with the URL and
`count:<code>` with a click counter of `0`. Resolving a code returns the URL
and bumps the counter with `INCR`. The stats handler reports the URL and the
click count.

The model replaces the Redis client with the keyspace itself: an immutable
`map<string, string>`. Every handler is a pure function from the store (plus
its inputs) to the store after it and the JSON body it answers with.

- `Wrappers`: `Option` and `Result`.
- `Decimal`: the decimal text of integers, which is how Redis stores a
  counter. The grammar is canonical: no leading zeros, no `+`, no `-0`.
  Printing and parsing are proved to be mutual inverses.
- `Redis`: `GET`, `SET` and `INCR` over the keyspace. `INCR` treats a missing
  key as 0. It refuses a value that is not a 64-bit integer, and it refuses a
  value already at the 64-bit maximum. A refused `INCR` writes nothing.
- `CodeGen`: `generate_code`. The random source is an input: the alphabet
  positions it picked, one per character.
- `Shortener`: the three handlers `shorten_url`, `redirect_info` and `stats`
  (named `ShortenUrl`, `RedirectInfo`, `GetStats`). An exception that escapes
  a handler, which FastAPI turns into an HTTP 500, is the `Raised` response.
- `Service`: the store invariant, the round trips between handlers, and a
  state machine (`Handle`, `Run`) that serves a sequence of requests.

Behaviour of the code worth knowing, all of which the model reproduces:

- There is no URL validation. Any string, including `""`, is stored.
- There is no collision check or retry. Shortening onto a used code
  overwrites it and resets its counter to 0.
- An empty stored URL reads as "not found", because the handlers test the
  `GET` reply for truthiness.
- "Not found" is an ordinary answer with body `{"error": "URL not found"}`,
  not an HTTP 404.
- `stats` raises when the counter key is missing: `int(None)` fails, so the
  request fails. In a sequential run of these handlers, provided both `SET`s
  of every shorten succeed, this cannot happen: the invariant
  `Service.Consistent` rules it out. A shorten whose second `SET` fails leaves
  a URL record with no counter; see the connection-errors line under "Left
  out". A missing counter can also appear when a stats request lands between
  the two separate `SET`s of a shorten request; see the concurrency line
  under "Left out".
- `redirect_info` does not read the counter before bumping it. `INCR` on a
  missing counter creates it with value 1.

## Model

| member | source | states |
|---|---|---|
| `CodeGen.GenerateCode` | app.py:29-30 | The generated code has exactly the requested length, and every character is an ASCII letter or digit. |
| `CodeGen.AlphabetIsIndexed` | app.py:30 | The alphabet `ascii_letters + digits` has 62 characters, all alphanumeric and pairwise distinct. |
| `CodeGen.GenerateCodeOnto` | app.py:29-30 | Every alphanumeric string of the requested length can be generated, from the picks that spell it. |
| `CodeGen.GenerateCodeInjective` | app.py:29-30 | Different random picks give different codes, so all 62^length codes are distinct outcomes. |
| `Decimal.NatToString` | app.py:42 | A counter is written as canonical decimal text that denotes exactly the given number. |
| `Decimal.ParseIntToString` | app.py:69 | Reading back any printed integer gives that integer. |
| `Decimal.CanonicalNatRoundTrip` | app.py:54 | A canonical digit string is exactly the text its own value prints as. |
| `Decimal.ToStringOfParseInt` | app.py:69 | Any text that parses as an integer is exactly how that integer prints: each integer has one spelling. |
| `Redis.Set` | app.py:41-42 | `SET` binds the key to the value, adds only that key, and leaves every other key as it was. |
| `Redis.ParseInt64` | app.py:54 | A stored value `INCR` accepts is a 64-bit integer whose canonical decimal text is exactly that value. |
| `Redis.ParseInt64RoundTrip` | app.py:54 | Every 64-bit value `INCR` writes back is read by the next `INCR` as itself. |
| `Redis.Incr` | app.py:54 | `INCR` fails exactly when the counter is not an integer or is at the 64-bit maximum, and then reports which. On success the counter goes from n-1 to n, a missing counter counting as 0, and no other key changes. |
| `Shortener.KeysDistinct` | app.py:41-42 | A `url:` key never equals a `count:` key, and each key prefix followed by a code names exactly one code. |
| `Shortener.ShortenUrl` | app.py:38-46 | Shorten answers with the code `generate_code` drew from the random picks (six alphanumeric characters) and the link `BASE_URL/code`. Afterwards `url:code` holds the URL and `count:code` holds "0", whatever they held before. It adds only these two keys and changes no other key. |
| `Shortener.RedirectInfo` | app.py:49-58 | Redirect answers "not found" exactly when the URL is absent or empty, and then the store is unchanged. Otherwise it answers with the stored URL exactly when the counter can be bumped. The counter then rises by one, and only that key changes. A failed `INCR` raises, reports overflow exactly when the counter is at the 64-bit maximum, and changes nothing. |
| `Shortener.GetStats` | app.py:61-70 | Stats answers "not found" exactly when the URL is absent or empty. It answers with the URL and the click count exactly when the counter exists and parses, and the count is the number the counter text spells. It raises a missing-counter fault exactly when the counter key is absent and a not-an-integer fault exactly when the counter is present but does not parse; it never reports a Redis failure, since it never calls `INCR`. |
| `Service.ZeroCounter` | app.py:42 | The counter written at shorten time, "0", is read as 0 by both `INCR` and `int()`. |
| `Service.ShortenKeepsConsistent` | app.py:40-42 | Shorten preserves the invariant: every code with a URL key has a counter, and every counter is a non-negative 64-bit integer. |
| `Service.RedirectKeepsConsistent` | app.py:51-54 | Redirect preserves the same invariant. |
| `Service.RedirectKeepsUrlRecords` | app.py:54 | Bumping a counter never changes any code's URL record. |
| `Service.ConsistentStatsAnswer` | app.py:63-70 | In a consistent store, stats never raises and reports a non-negative click count. |
| `Service.ConsistentRedirectAnswers` | app.py:51-54 | In a consistent store, redirect on a known code raises exactly when its counter is at the 64-bit maximum. |
| `Service.ShortenThenRedirect` | app.py:38-58 | Redirecting on the code just returned by shorten answers with the shortened URL. When that URL was empty it answers "not found". |
| `Service.ShortenThenStats` | app.py:38-70 | Right after shorten, stats report the URL with 0 clicks, even if the code was already in use. For an empty URL they report "not found". |
| `Service.RedirectsCount` | app.py:49-58 | Each of `n` redirects on a known code adds exactly one click and keeps the URL. |
| `Service.ClicksAfterRedirects` | app.py:38-70 | After shortening a non-empty URL, each of `n` redirects answers with that URL, and stats then report exactly `n` clicks. |
| `Service.Handle` | app.py:38-70 | A stats request leaves the store unchanged, and every request preserves the invariant. In a consistent store, the only way a request raises is a redirect whose counter is at the 64-bit maximum. |
| `Service.Run` | app.py:38-70 | A run of requests yields one response per request and preserves the invariant. A run of stats requests only leaves the store unchanged. |
| `Service.StatsTwice` | app.py:61-70 | Two stats requests in a row give the same answer and leave the store unchanged. |

## Left out

- The FastAPI application, its route decorators, the `URLInput` request model and the `/health` handler: HTTP plumbing. Routing is not modelled. As written, `/health` is registered before `/{code}`, so a generated code spelled `health` would get the health answer instead of a redirect.
- Redis connection setup and the environment reads (`REDIS_URL`, host, port, password, `BASE_URL`): configuration. `BASE_URL` is a parameter of `ShortenUrl`.
- Redis connection errors, timeouts and out-of-memory replies: every `GET`, `SET` and `INCR` in the model succeeds or fails only by its own semantics, and `Redis.Set` never fails. In the program, a shorten whose first `SET` succeeds and whose second `SET` fails answers with a 500 and leaves `url:c` without `count:c`, so the next stats on `c` raises at `int(None)`.
- Real randomness: the positions `random.choices` picks are an input to `CodeGen.GenerateCode` and to `ShortenUrl`. Their distribution is not modelled; `CodeGen.GenerateCodeInjective` states only that distinct picks give distinct codes.
- Concurrency: the atomicity of `INCR` and the two separate `SET`s of a shorten are not modelled. Handlers run one at a time, so the model does not show a stats request that reads `url:c` after the first `SET` and before the second, and raises on the missing counter.
- Redis value types other than strings (`WRONGTYPE` replies): the handlers only ever write strings.
- Shortener.GetStats: reads the counter with the canonical integer grammar (`Shortener.PyInt`). Python's `int()` also accepts leading zeros, a `+` sign, `-0`, surrounding whitespace, digit underscores and non-ASCII decimal digits, and it refuses texts longer than 4300 digits. These differ only for counters written by something other than these handlers.

=== FILE: codegen.dfy ===
/** Short-code generation: `length` characters drawn with replacement from
    the 62 ASCII letters and digits. The random source is an input: `picks`
    holds the alphabet positions it chose, one per character. */
module CodeGen {

  /** Length of a code when the caller does not give one. */
  const DefaultLength: nat := 6

  /** The three runs of the alphabet, spelled as Python's string module
      defines them and concatenated in its order: lower-case letters,
      upper-case letters, digits. */
  const Lowercase: string := "abcdefghijklmnopqrstuvwxyz"
  const Uppercase: string := "ABCDEFGHIJKLMNOPQRSTUVWXYZ"
  const Digits: string := "0123456789"
  const Alphabet: string := Lowercase + Uppercase + Digits

  predicate IsAlphanumeric(ch: char) {
    'a' <= ch <= 'z' || 'A' <= ch <= 'Z' || '0' <= ch <= '9'
  }

  /** A code of the given length over the alphabet. */
  predicate IsCode(code: string, length: nat) {
    |code| == length && forall i | 0 <= i < |code| :: IsAlphanumeric(code[i])
  }

  /** What the random source may hand over: one alphabet position per character. */
  predicate ValidPicks(picks: seq<nat>, length: nat) {
    |picks| == length && forall i | 0 <= i < |picks| :: picks[i] < |Alphabet|
  }

  /** Position of an alphanumeric character in the alphabet. */
  function IndexOf(ch: char): (j: nat)
    requires IsAlphanumeric(ch)
    ensures j < |Alphabet| && Alphabet[j] == ch
  {
    if 'a' <= ch <= 'z' then ch as int - 'a' as int
    else if 'A' <= ch <= 'Z' then 26 + (ch as int - 'A' as int)
    else 52 + (ch as int - '0' as int)
  }

  /** The alphabet has 62 characters, all alphanumeric and pairwise distinct:
      position j holds the one character whose index is j. */
  lemma AlphabetIsIndexed()
    ensures |Alphabet| == 62
    ensures forall j | 0 <= j < |Alphabet| :: IsAlphanumeric(Alphabet[j]) && IndexOf(Alphabet[j]) == j
  {
    forall j | 0 <= j < |Alphabet|
      ensures IsAlphanumeric(Alphabet[j]) && IndexOf(Alphabet[j]) == j
    {
      if j < 26 {
        assert Alphabet[j] == Lowercase[j];
        IsConsecutive(Lowercase, 'a', j);
      } else if j < 52 {
        assert Alphabet[j] == Uppercase[j - 26];
        IsConsecutive(Uppercase, 'A', j - 26);
      } else {
        assert Alphabet[j] == Digits[j - 52];
        IsConsecutive(Digits, '0', j - 52);
      }
    }
  }

  /** Each run of the alphabet is a block of consecutive characters. */
  lemma IsConsecutive(run: string, first: char, j: nat)
    requires (run == Lowercase && first == 'a') || (run == Uppercase && first == 'A') || (run == Digits && first == '0')
    requires j < |run|
    ensures run[j] as int == first as int + j
  {
  }

  /** The code `random.choices(ascii_letters + digits, k=length)` joins
      when the random source picks the positions `picks`. */
  function GenerateCode(length: nat, picks: seq<nat>): (code: string)
    requires ValidPicks(picks, length)
    ensures IsCode(code, length)
  {
    AlphabetIsIndexed();
    seq(length, i requires 0 <= i < length => Alphabet[picks[i]])
  }

  /** The positions that spell a code. */
  function PicksOf(code: string): seq<nat>
    requires IsCode(code, |code|)
  {
    seq(|code|, i requires 0 <= i < |code| => IndexOf(code[i]))
  }

  /** Every code of the right length and alphabet can be generated, by
      exactly the picks that spell it. */
  lemma GenerateCodeOnto(code: string, length: nat)
    requires IsCode(code, length)
    ensures ValidPicks(PicksOf(code), length)
    ensures GenerateCode(length, PicksOf(code)) == code
  {
  }

  /** Distinct picks give distinct codes; with uniform picks every code of a
      given length would be equally likely. */
  lemma GenerateCodeInjective(length: nat, p: seq<nat>, q: seq<nat>)
    requires ValidPicks(p, length) && ValidPicks(q, length)
    requires GenerateCode(length, p) == GenerateCode(length, q)
    ensures p == q
  {
    AlphabetIsIndexed();
    forall i | 0 <= i < length
      ensures p[i] == q[i]
    {
      assert Alphabet[p[i]] == GenerateCode(length, p)[i];
      assert IndexOf(Alphabet[p[i]]) == p[i];
      assert IndexOf(Alphabet[q[i]]) == q[i];
    }
  }
}

=== FILE: decimal.dfy ===
/** Base-10 text of integers, as Redis stores a counter and parses it back
    before INCR. The grammar is the canonical one Redis accepts: an optional
    '-', then digits with no superfluous leading zero, and no "-0". */
module Decimal {
  import opened Wrappers

  predicate IsDigit(ch: char) {
    '0' <= ch <= '9'
  }

  function DigitValue(ch: char): (d: nat)
    requires IsDigit(ch)
    ensures d < 10
  {
    ch as int - '0' as int
  }

  function DigitChar(d: nat): (ch: char)
    requires d < 10
    ensures IsDigit(ch) && DigitValue(ch) == d
  {
    ('0' as int + d) as char
  }

  predicate AllDigits(s: string) {
    forall i | 0 <= i < |s| :: IsDigit(s[i])
  }

  /** A non-empty digit string whose first digit is '0' only when it is "0". */
  predicate IsCanonicalNat(s: string) {
    |s| > 0 && AllDigits(s) && (s[0] == '0' ==> |s| == 1)
  }

  /** The number a digit string denotes, most significant digit first. */
  function DigitsValue(s: string): nat
    requires AllDigits(s)
    decreases |s|
  {
    if s == [] then 0 else DigitsValue(s[..|s| - 1]) * 10 + DigitValue(s[|s| - 1])
  }

  /** Formats a natural number the way Redis and Python both print it. */
  function NatToString(n: nat): (s: string)
    ensures IsCanonicalNat(s) && DigitsValue(s) == n
    decreases n
  {
    if n < 10 then
      var s := [DigitChar(n)];
      assert s[..0] == [];
      s
    else
      var p := NatToString(n / 10);
      var s := p + [DigitChar(n % 10)];
      assert s[..|s| - 1] == p;
      assert p[0] != '0';
      s
  }

  function IntToString(i: int): string {
    if i < 0 then "-" + NatToString(-i) else NatToString(i)
  }

  /** Parses canonical signed decimal text; anything else is not an integer. */
  function ParseInt(s: string): Option<int> {
    if IsCanonicalNat(s) then Some(DigitsValue(s))
    else if |s| >= 2 && s[0] == '-' && s[1] != '0' && IsCanonicalNat(s[1..]) then
      Some(-(DigitsValue(s[1..]) as int))
    else None
  }

  /** Printing then parsing gives the number back. */
  lemma ParseIntToString(i: int)
    ensures ParseInt(IntToString(i)) == Some(i)
  {
  }

  /** A canonical digit string is exactly how its value prints. */
  lemma {:induction false} CanonicalNatRoundTrip(s: string)
    requires IsCanonicalNat(s)
    ensures NatToString(DigitsValue(s)) == s
    decreases |s|
  {
    var d := s[|s| - 1];
    if |s| == 1 {
      assert s[..0] == [];
      assert DigitsValue(s) == DigitValue(d);
    } else {
      var p := s[..|s| - 1];
      assert p[0] == s[0];
      CanonicalNatRoundTrip(p);
      var v := DigitsValue(s);
      assert v == DigitsValue(p) * 10 + DigitValue(d);
      assert v / 10 == DigitsValue(p) && v % 10 == DigitValue(d);
      assert DigitChar(DigitValue(d)) == d;
      assert s == p + [d];
    }
  }

  /** Parsing then printing gives the text back: the grammar has exactly one
      spelling per integer. */
  lemma ToStringOfParseInt(s: string, i: int)
    requires ParseInt(s) == Some(i)
    ensures IntToString(i) == s
  {
    if IsCanonicalNat(s) {
      CanonicalNatRoundTrip(s);
    } else {
      var t := s[1..];
      assert IsCanonicalNat(t) && t[0] != '0';
      var v := DigitsValue(t);
      assert i == -(v as int);
      CanonicalNatRoundTrip(t);
      assert v != 0;
      assert IntToString(i) == "-" + NatToString(v);
      assert s == "-" + t;
    }
  }
}

=== FILE: redis.dfy ===
/** The part of a Redis keyspace the shortener touches: string keys holding
    string values, read with GET, written with SET and bumped with INCR.
    Connection errors and timeouts are not part of this model. */
module Redis {
  import opened Wrappers
  import Decimal

  type Store = map<string, string>

  /** Range of the signed 64-bit integers INCR works on. */
  const MinInt64: int := -0x8000_0000_0000_0000
  const MaxInt64: int := 0x7fff_ffff_ffff_ffff

  /** The two replies with which INCR refuses a key. */
  datatype Error =
    | NotAnInteger  // "value is not an integer or out of range"
    | Overflow      // "increment or decrement would overflow"

  /** GET: the value, or nothing for a missing key. */
  function Get(s: Store, key: string): Option<string> {
    if key in s then Some(s[key]) else None
  }

  /** SET: binds the key, creating or overwriting it. */
  function Set(s: Store, key: string, value: string): (s': Store)
    ensures Get(s', key) == Some(value)
    ensures forall k | k != key :: Get(s', k) == Get(s, k)
    ensures s'.Keys == s.Keys + {key}
  {
    s[key := value]
  }

  /** The integer a stored value denotes for INCR: canonical decimal text
      within the signed 64-bit range. */
  function ParseInt64(v: string): (r: Option<int>)
    ensures r.Some? ==> MinInt64 <= r.value <= MaxInt64 && Decimal.IntToString(r.value) == v
  {
    match Decimal.ParseInt(v)
    case Some(i) =>
      Decimal.ToStringOfParseInt(v, i);
      if MinInt64 <= i <= MaxInt64 then Some(i) else None
    case None => None
  }

  /** Every 64-bit integer INCR writes back is read as itself. */
  lemma ParseInt64RoundTrip(i: int)
    requires MinInt64 <= i <= MaxInt64
    ensures ParseInt64(Decimal.IntToString(i)) == Some(i)
  {
  }

  /** The counter INCR starts from: 0 for a missing key, the stored integer
      otherwise, nothing when the value is not an integer. */
  function CounterValue(s: Store, key: string): Option<int> {
    if key in s then ParseInt64(s[key]) else Some(0)
  }

  /** INCR: adds one to the integer at the key (a missing key counts as 0)
      and stores the result as text. A value that is not an integer, or one
      already at the 64-bit maximum, is refused and nothing is written. */
  function Incr(s: Store, key: string): (r: Result<(Store, int), Error>)
    ensures r.Err? <==> CounterValue(s, key).None? || CounterValue(s, key) == Some(MaxInt64)
    ensures r.Err? ==> (r.error == Overflow <==> CounterValue(s, key) == Some(MaxInt64))
    ensures r.Ok? ==> var (s', n) := r.value;
      && CounterValue(s, key) == Some(n - 1)
      && CounterValue(s', key) == Some(n)
      && key in s'
      && s'.Keys == s.Keys + {key}
      && forall k | k != key :: Get(s', k) == Get(s, k)
  {
    match CounterValue(s, key)
    case None => Err(NotAnInteger)
    case Some(n) =>
      if n == MaxInt64 then Err(Overflow)
      else
        var s' := s[key := Decimal.IntToString(n + 1)];
        assert CounterValue(s', key) == Some(n + 1) by {
          ParseInt64RoundTrip(n + 1);
        }
        Ok((s', n + 1))
  }
}

=== FILE: service.dfy ===
/** The shortener as a state machine over the store: the consistency
    invariant its handlers keep, the round trips between them, and runs of
    requests. */
module Service {
  import opened Wrappers
  import Decimal
  import Redis
  import CodeGen
  import opened Shortener

  /** A counter as the handlers write it: a non-negative 64-bit integer. */
  predicate IsClickCounter(v: string) {
    var n := Redis.ParseInt64(v);
    n.Some? && n.value >= 0
  }

  /** Every code with a URL record has a counter beside it, and every
      counter holds a non-negative 64-bit integer. */
  ghost predicate Consistent(s: Redis.Store) {
    && (forall code :: UrlKey(code) in s ==> CountKey(code) in s)
    && (forall code :: CountKey(code) in s ==> IsClickCounter(s[CountKey(code)]))
  }

  /** The counter shorten writes, "0", reads as 0 for both INCR and int(). */
  lemma ZeroCounter()
    ensures Decimal.IntToString(0) == "0"
    ensures Redis.ParseInt64("0") == Some(0)
    ensures PyInt("0") == Some(0)
  {
  }

  /** Shorten writes a URL and its zero counter together, so it keeps the
      invariant, also when it overwrites a code in use. */
  lemma ShortenKeepsConsistent(s: Redis.Store, baseUrl: string, url: string, picks: seq<nat>)
    requires CodeGen.ValidPicks(picks, CodeGen.DefaultLength)
    requires Consistent(s)
    ensures Consistent(ShortenUrl(s, baseUrl, url, picks).0)
  {
    var (s', resp) := ShortenUrl(s, baseUrl, url, picks);
    var code := resp.code;
    ZeroCounter();
    forall c | UrlKey(c) in s'
      ensures CountKey(c) in s'
    {
      KeysDistinct(c, code);
      KeysDistinct(code, c);
      if c != code {
        assert Redis.Get(s', UrlKey(c)) == Redis.Get(s, UrlKey(c));
        assert Redis.Get(s', CountKey(c)) == Redis.Get(s, CountKey(c));
      }
    }
    forall c | CountKey(c) in s'
      ensures IsClickCounter(s'[CountKey(c)])
    {
      KeysDistinct(c, code);
      KeysDistinct(code, c);
      if c != code {
        assert Redis.Get(s', CountKey(c)) == Redis.Get(s, CountKey(c));
      }
    }
  }

  /** Redirect changes at most one counter, to its successor, so it keeps
      the invariant. */
  lemma RedirectKeepsConsistent(s: Redis.Store, code: string)
    requires Consistent(s)
    ensures Consistent(RedirectInfo(s, code).0)
  {
  }

  /** Bumping a counter never touches any URL record. */
  lemma RedirectKeepsUrlRecords(s: Redis.Store, code: string, other: string)
    ensures Redis.Get(RedirectInfo(s, code).0, UrlKey(other)) == Redis.Get(s, UrlKey(other))
  {
    KeysDistinct(other, code);
  }

  /** In a consistent store stats never raises: a known code always has a
      readable, non-negative click count. */
  lemma ConsistentStatsAnswer(s: Redis.Store, code: string)
    requires Consistent(s)
    ensures !GetStats(s, code).Raised?
    ensures GetStats(s, code).Stats? ==> GetStats(s, code).clicks >= 0
  {
  }

  /** In a consistent store a redirect on a known code raises only when its
      counter has reached the 64-bit maximum. */
  lemma ConsistentRedirectAnswers(s: Redis.Store, code: string)
    requires Consistent(s)
    requires Truthy(Redis.Get(s, UrlKey(code)))
    ensures RedirectInfo(s, code).1.Raised? <==> s[CountKey(code)] == Decimal.IntToString(Redis.MaxInt64)
  {
  }

  /** Redirecting on the code just produced answers with the URL that was
      shortened, unless that URL was empty, which reads as not found. */
  lemma ShortenThenRedirect(s: Redis.Store, baseUrl: string, url: string, picks: seq<nat>)
    requires CodeGen.ValidPicks(picks, CodeGen.DefaultLength)
    ensures var (s1, resp) := ShortenUrl(s, baseUrl, url, picks);
      RedirectInfo(s1, resp.code).1 ==
        if url == "" then NotFound(NotFoundMessage) else Redirected(url, RedirectMessage)
  {
  }

  /** Right after shortening, stats report the URL with zero clicks,
      whatever the code held before: a reused code loses its old URL and
      its old count. */
  lemma ShortenThenStats(s: Redis.Store, baseUrl: string, url: string, picks: seq<nat>)
    requires CodeGen.ValidPicks(picks, CodeGen.DefaultLength)
    ensures var (s1, resp) := ShortenUrl(s, baseUrl, url, picks);
      GetStats(s1, resp.code) == if url == "" then NotFound(NotFoundMessage) else Stats(url, 0)
  {
  }

  /** The store after `n` redirect requests for one code. */
  function Redirects(s: Redis.Store, code: string, n: nat): Redis.Store
    decreases n
  {
    if n == 0 then s else Redirects(RedirectInfo(s, code).0, code, n - 1)
  }

  /** Each redirect on a known code adds exactly one click and keeps its URL. */
  lemma {:induction false} RedirectsCount(s: Redis.Store, code: string, url: string, k: nat, n: nat)
    requires url != "" && Redis.Get(s, UrlKey(code)) == Some(url)
    requires Redis.Get(s, CountKey(code)) == Some(Decimal.IntToString(k))
    requires k + n <= Redis.MaxInt64
    ensures Redis.Get(Redirects(s, code, n), UrlKey(code)) == Some(url)
    ensures Redis.Get(Redirects(s, code, n), CountKey(code)) == Some(Decimal.IntToString(k + n))
    decreases n
  {
    if n > 0 {
      var key := CountKey(code);
      Redis.ParseInt64RoundTrip(k);
      var (s1, resp) := RedirectInfo(s, code);
      assert resp.Redirected?;
      assert Redis.ParseInt64(s1[key]) == Some(k + 1);
      KeysDistinct(code, code);
      RedirectsCount(s1, code, url, k + 1, n - 1);
    }
  }

  /** After shortening a non-empty URL and redirecting `n` times on its code,
      every redirect has answered with the URL and stats report `n` clicks. */
  lemma ClicksAfterRedirects(s: Redis.Store, baseUrl: string, url: string, picks: seq<nat>, n: nat)
    requires CodeGen.ValidPicks(picks, CodeGen.DefaultLength)
    requires url != "" && n <= Redis.MaxInt64
    ensures var (s1, resp) := ShortenUrl(s, baseUrl, url, picks);
      && (forall i | 0 <= i < n :: RedirectInfo(Redirects(s1, resp.code, i), resp.code).1 == Redirected(url, RedirectMessage))
      && GetStats(Redirects(s1, resp.code, n), resp.code) == Stats(url, n)
  {
    var (s1, resp) := ShortenUrl(s, baseUrl, url, picks);
    var code := resp.code;
    ZeroCounter();
    forall i | 0 <= i < n
      ensures RedirectInfo(Redirects(s1, code, i), code).1 == Redirected(url, RedirectMessage)
    {
      RedirectsCount(s1, code, url, 0, i);
      Redis.ParseInt64RoundTrip(i);
    }
    RedirectsCount(s1, code, url, 0, n);
    Decimal.ParseIntToString(n);
  }

  /** A request as it reaches the handlers; a shorten request carries the
      positions the random source picked for its code. */
  datatype Request =
    | ShortenRequest(url: string, picks: seq<nat>)
    | RedirectRequest(code: string)
    | StatsRequest(code: string)

  predicate WellFormed(req: Request) {
    req.ShortenRequest? ==> CodeGen.ValidPicks(req.picks, CodeGen.DefaultLength)
  }

  /** Dispatches one request. Stats leave the store as it was, and every
      handler keeps the store consistent. */
  function Handle(s: Redis.Store, baseUrl: string, req: Request): (r: (Redis.Store, Response))
    requires WellFormed(req)
    ensures req.StatsRequest? ==> r.0 == s
    ensures Consistent(s) ==> Consistent(r.0)
    ensures Consistent(s) && r.1.Raised? ==>
      req.RedirectRequest? && Redis.Get(s, CountKey(req.code)) == Some(Decimal.IntToString(Redis.MaxInt64))
  {
    match req
    case ShortenRequest(url, picks) =>
      assert Consistent(s) ==> Consistent(ShortenUrl(s, baseUrl, url, picks).0) by {
        if Consistent(s) {
          ShortenKeepsConsistent(s, baseUrl, url, picks);
        }
      }
      ShortenUrl(s, baseUrl, url, picks)
    case RedirectRequest(code) =>
      var r := RedirectInfo(s, code);
      assert Consistent(s) ==> Consistent(r.0) by {
        if Consistent(s) {
          RedirectKeepsConsistent(s, code);
        }
      }
      assert Consistent(s) && r.1.Raised? ==> s[CountKey(code)] == Decimal.IntToString(Redis.MaxInt64) by {
        if Consistent(s) && r.1.Raised? {
          ConsistentRedirectAnswers(s, code);
        }
      }
      r
    case StatsRequest(code) =>
      assert Consistent(s) ==> !GetStats(s, code).Raised? by {
        if Consistent(s) {
          ConsistentStatsAnswer(s, code);
        }
      }
      (s, GetStats(s, code))
  }

  /** Serves a sequence of requests one after another. */
  function Run(s: Redis.Store, baseUrl: string, reqs: seq<Request>): (r: (Redis.Store, seq<Response>))
    requires forall i | 0 <= i < |reqs| :: WellFormed(reqs[i])
    ensures |r.1| == |reqs|
    ensures Consistent(s) ==> Consistent(r.0)
    ensures (forall i | 0 <= i < |reqs| :: reqs[i].StatsRequest?) ==> r.0 == s
    decreases |reqs|
  {
    if reqs == [] then (s, [])
    else
      var (s1, first) := Handle(s, baseUrl, reqs[0]);
      var (s2, rest) := Run(s1, baseUrl, reqs[1..]);
      (s2, [first] + rest)
  }

  /** Asking for the same stats twice in a row gives the same answer. */
  lemma StatsTwice(s: Redis.Store, baseUrl: string, code: string)
    ensures var r := Run(s, baseUrl, [StatsRequest(code), StatsRequest(code)]);
      r.1[0] == r.1[1] == GetStats(s, code) && r.0 == s
  {
  }
}

=== FILE: shortener.dfy ===
/** The shortener's three handlers over a Redis keyspace. For a code `c`
    the store holds two keys: `url:c`, the long URL, and `count:c`, the
    click counter as decimal text. Each handler takes the store and returns
    the store after it together with the JSON body it answers with; an
    exception escaping a handler (an HTTP 500) is the `Raised` response. */
module Shortener {
  import opened Wrappers
  import Decimal
  import Redis
  import CodeGen

  /** Body of every "not found" answer. */
  const NotFoundMessage: string := "URL not found"
  /** Note sent alongside a resolved URL instead of an actual redirect. */
  const RedirectMessage: string := "Redirect simulated (for demo)"

  function UrlKey(code: string): string {
    "url:" + code
  }

  function CountKey(code: string): string {
    "count:" + code
  }

  /** Why a handler raised instead of answering. */
  datatype Fault =
    | RedisFailure(error: Redis.Error)  // INCR refused the counter
    | CountMissing                      // int(None): the counter key is absent
    | CountNotInteger                   // int(...) refused the counter text

  datatype Response =
    | Shortened(shortUrl: string, code: string)
    | Redirected(originalUrl: string, message: string)
    | Stats(url: string, clicks: int)
    | NotFound(error: string)
    | Raised(fault: Fault)

  /** Python truthiness of a GET reply: None and "" are both false. */
  predicate Truthy(v: Option<string>) {
    v.Some? && v.value != ""
  }

  /** The link handed back for a code. */
  function ShortUrl(baseUrl: string, code: string): string {
    baseUrl + "/" + code
  }

  /** Python's int() applied to a counter read back from the store. */
  function PyInt(v: string): Option<int> {
    Decimal.ParseInt(v)
  }

  /** POST /shorten: draws a fresh code, writes the URL under it and a zero
      counter beside it, and answers with the code and its short link. There
      is no validation of the URL and no check that the code is unused. */
  function ShortenUrl(s: Redis.Store, baseUrl: string, url: string, picks: seq<nat>): (r: (Redis.Store, Response))
    requires CodeGen.ValidPicks(picks, CodeGen.DefaultLength)
    ensures r.1.Shortened? && CodeGen.IsCode(r.1.code, CodeGen.DefaultLength)
    ensures r.1.code == CodeGen.GenerateCode(CodeGen.DefaultLength, picks)
    ensures r.1.shortUrl == ShortUrl(baseUrl, r.1.code)
    ensures Redis.Get(r.0, UrlKey(r.1.code)) == Some(url)
    ensures Redis.Get(r.0, CountKey(r.1.code)) == Some("0")
    ensures r.0.Keys == s.Keys + {UrlKey(r.1.code), CountKey(r.1.code)}
    ensures forall k | k != UrlKey(r.1.code) && k != CountKey(r.1.code) :: Redis.Get(r.0, k) == Redis.Get(s, k)
  {
    var code := CodeGen.GenerateCode(CodeGen.DefaultLength, picks);
    KeysDistinct(code, code);
    var s1 := Redis.Set(s, UrlKey(code), url);
    var s2 := Redis.Set(s1, CountKey(code), "0");
    (s2, Shortened(ShortUrl(baseUrl, code), code))
  }

  /** GET /{code}: answers "not found" when the URL is missing or empty;
      otherwise bumps the counter with INCR and answers with the URL. */
  function RedirectInfo(s: Redis.Store, code: string): (r: (Redis.Store, Response))
    ensures !Truthy(Redis.Get(s, UrlKey(code))) <==> r.1.NotFound?
    ensures r.1.NotFound? ==> r == (s, NotFound(NotFoundMessage))
    ensures r.1.Raised? ==> r.0 == s && r.1.fault.RedisFailure?
    ensures r.1.Raised? ==>
      (r.1.fault.error == Redis.Overflow <==> Redis.CounterValue(s, CountKey(code)) == Some(Redis.MaxInt64))
    ensures !r.1.Shortened? && !r.1.Stats?
    ensures r.1.Redirected? ==>
      && Redis.Get(s, UrlKey(code)) == Some(r.1.originalUrl)
      && r.1.message == RedirectMessage
      && Redis.CounterValue(s, CountKey(code)).Some?
      && Redis.CounterValue(r.0, CountKey(code)) == Some(Redis.CounterValue(s, CountKey(code)).value + 1)
      && r.0.Keys == s.Keys + {CountKey(code)}
      && forall k | k != CountKey(code) :: Redis.Get(r.0, k) == Redis.Get(s, k)
    ensures Truthy(Redis.Get(s, UrlKey(code))) ==>
      (r.1.Redirected? <==> Redis.CounterValue(s, CountKey(code)).Some? && Redis.CounterValue(s, CountKey(code)).value < Redis.MaxInt64)
  {
    var url := Redis.Get(s, UrlKey(code));
    if !Truthy(url) then
      (s, NotFound(NotFoundMessage))
    else
      match Redis.Incr(s, CountKey(code))
      case Err(e) => (s, Raised(RedisFailure(e)))
      case Ok((s', _)) => (s', Redirected(url.value, RedirectMessage))
  }

  /** GET /stats/{code}: reads the URL and the counter, answers "not found"
      when the URL is missing or empty, and otherwise the URL with the
      counter converted by int(), which raises when the counter is missing or
      is not an integer. The store is only read. */
  function GetStats(s: Redis.Store, code: string): (r: Response)
    ensures !Truthy(Redis.Get(s, UrlKey(code))) <==> r.NotFound?
    ensures r.NotFound? ==> r == NotFound(NotFoundMessage)
    ensures r.Stats? <==> Truthy(Redis.Get(s, UrlKey(code))) && CountKey(code) in s && PyInt(s[CountKey(code)]).Some?
    ensures r.Stats? ==> r.url == s[UrlKey(code)] && Decimal.IntToString(r.clicks) == s[CountKey(code)]
    ensures r.Raised? ==> (r.fault == CountMissing <==> CountKey(code) !in s)
    ensures r.Raised? ==> (r.fault == CountNotInteger <==> CountKey(code) in s) && !r.fault.RedisFailure?
    ensures !r.Shortened? && !r.Redirected?
  {
    var url := Redis.Get(s, UrlKey(code));
    var count := Redis.Get(s, CountKey(code));
    if !Truthy(url) then
      NotFound(NotFoundMessage)
    else
      match count
      case None => Raised(CountMissing)
      case Some(text) =>
        match PyInt(text)
        case None => Raised(CountNotInteger)
        case Some(n) =>
          Decimal.ToStringOfParseInt(text, n);
          Stats(url.value, n)
  }

  /** A URL key never names a counter, and each kind of key names one code. */
  lemma KeysDistinct(a: string, b: string)
    ensures UrlKey(a) != CountKey(b)
    ensures UrlKey(a) == UrlKey(b) <==> a == b
    ensures CountKey(a) == CountKey(b) <==> a == b
  {
    assert UrlKey(a)[0] == 'u' && CountKey(b)[0] == 'c';
    if UrlKey(a) == UrlKey(b) {
      assert a == UrlKey(a)[4..] == UrlKey(b)[4..] == b;
    }
    if CountKey(a) == CountKey(b) {
      assert a == CountKey(a)[6..] == CountKey(b)[6..] == b;
    }
  }
}

=== FILE: wrappers.dfy ===
/** Optional values and fallible results, used for Redis replies and
    Python exceptions. */
module Wrappers {

  /** A value that may be absent, like a Redis GET on a missing key. */
  datatype Option<+T> = None | Some(value: T)

  /** Either a value or the error that was raised instead. */
  datatype Result<+T, +E> = Ok(value: T) | Err(error: E)
}
